=== FILE: README.md ===
# Landlord grading engine — Dafny model

This project models the grading engine of open-landlord, a site that grades landlords against city-wide norms. The engine lives in `utils.py` and reads its tables from `constants.py`. It is a pure pipeline:

1. **Per-metric grade** (`get_std_devs`, `get_grade_and_color_from_std_devs`, `get_stats_grade_and_color`). A landlord's metric value is turned into a signed offset `(mean - value) / std_dev`, and the offset is bucketed into F, D, C, B or A at ±0.5 and ±1.5. A zero or missing value gets A without any division.
2. **Annotation** (`add_grade_and_color`, `replace_none_with_zero`). The statistics dictionary gets `_color`, `_grade` and `_grade_value` entries for each of the four grade components.
3. **Overall score** (`calculate_landlord_score`, `get_letter_grade_and_color`). The four component values are averaged. A failing component (below 2) caps an average of 3.0 or more at 2.5. The floor of the score picks the letter and the fractional part picks a -/+ modifier.
4. **Normalisation and ranking.** This covers three pieces:
   - the per-unit figures of the second `get_landlord_stats`;
   - the per-group lists and means of `get_city_average_stats`;
   - the grade sort and page slice of `sort_landlords_by_grade`.

Modules, one per part of the source:

- `Wrappers` (wrappers.dfy): `Option`, `Result`, and the Python exceptions that escape the code (`ZeroDivisionError`, `KeyError`, `TypeError`, `StatisticsError`).
- `Constants` (constants.dfy): the grade records, colour table, component list and paging defaults.
- `Grading` (grading.dfy): the per-metric grade.
- `Stats` (stats.dfy): the statistics dictionary, `replace_none_with_zero` and `add_grade_and_color`.
- `Score` (score.dfy): the overall score and the letter grade.
- `Normalise` (normalise.dfy): `get_landlord_stats` and `get_city_average_stats`.
- `Ranking` (ranking.dfy): Python string order, the stable sort, Python slicing and `sort_landlords_by_grade`.

Modelling choices:
- Python numbers are Dafny `real`s.
- The database queries become parameters. A missing query row is `None`, and a per-group result is a list of `(group id, count)` rows.
- Every exception a modelled function can raise is an `Err` result naming that exception, and where several components or rows could fail it is the first one's. No `requires` rules an exception out. Exceptions of code that became a parameter are not part of the calling member's `Err`; see "## Left out".
- `statistics.stdev` is a function parameter.
- The grade sort key is the grade string. It is compared as Python compares strings: by code point, with a proper prefix first, and `'+'` (0x2B) before `'-'` (0x2D). So `"B" < "B+" < "B-"`. Any direction other than "asc" sorts descending, which lists the worst grades first: F, D-, D+, D, C-, C+, C, B-, B+, B, A (`Ranking.DescendingIsWorstFirst`).

Error and edge behaviour of the code, as the model follows it:
- A zero standard deviation is not rejected when the baseline is built. It raises `ZeroDivisionError` only when a non-zero value is graded against it. A zero or missing value still gets A.
- A known unit count of 0 raises `ZeroDivisionError` in `get_landlord_stats` and in the eviction list of `get_city_average_stats`. It does not fall back to the raw count. Only the code-violation list falls back, and it does so whenever the unit count is not positive.
- `statistics.stdev` raises `StatisticsError` for fewer than two groups. No other degenerate distribution is detected.
- Page numbers are not validated. Page 0 is empty, and a negative page counts back from the end of the sorted list, following Python's negative slice bounds (`Ranking.NonPositivePages`).

## Model

| member | source | states |
|---|---|---|
| Constants.GradeValuesIncreasing | constants.py:16-20 | grade values are F=0, D=1, C=2, B=3, A=4, strictly increasing from F to A |
| Constants.GradeColoursConsistent | constants.py:8-20 | each grade record's colour is the colour table's entry for its own letter |
| Constants.ColourTiers | constants.py:8-14 | A and B are green 2cba00, C and D orange ffa700, and F alone red ff0000 |
| Constants.ComponentsDistinct | constants.py:23-30 | exactly four distinct grade components, and the scaled stats are the same list |
| Constants.DefaultPaging | constants.py:1-2 | default page number and size are positive, and the default first index is 0 |
| Grading.StdDevs | utils.py:64-67 | raises exactly when std_dev is 0; otherwise offset × std_dev = mean − value (None read as 0), and with std_dev > 0 the offset is positive iff the value is below the mean |
| Grading.GradeFromStdDevs | utils.py:70-80 | the five bands as if-and-only-ifs: ≤ −1.5 F, (−1.5, −0.5] D, (−0.5, 0.5) C, [0.5, 1.5) B, ≥ 1.5 A |
| Grading.GradeFromStdDevsMonotone | utils.py:70-80 | a larger offset never gets a lower grade value |
| Grading.StatsGradeAndColor | utils.py:129-135 | a zero or None value gets A whatever the mean and std_dev; it raises only for a non-zero value with std_dev 0; the result is one of the five grade records |
| Grading.ZeroGetsA | utils.py:130-131 | zero leniency: grade A with value 4 for every mean and std_dev, 0 included |
| Grading.ValueBands | utils.py:129-135 | with std_dev s > 0, the bands restated on a non-zero value v without division: F iff v ≥ m+1.5s, D iff m+0.5s ≤ v < m+1.5s, C iff m−0.5s < v < m+0.5s, B iff m−1.5s < v ≤ m−0.5s, A iff v ≤ m−1.5s |
| Grading.ValueAtMeanGetsC | utils.py:129-135 | a non-zero value equal to the mean is graded C |
| Grading.GradeMonotoneInValue | utils.py:129-135 | with std_dev > 0 and 0 ≤ v1 ≤ v2, v2 never gets a higher grade value than v1 |
| Stats.ReplaceNoneWithZero | utils.py:60-61 | same key set, None becomes 0, every other value is unchanged, and no None is left |
| Stats.ReplaceNoneWithZeroIdempotent | utils.py:60-61 | applying it twice equals applying it once |
| Stats.OwnKeysDistinct | utils.py:54-56 | the `_color`, `_grade` and `_grade_value` keys of one component are three different keys |
| Stats.GradeComponentKeysSeparate | utils.py:54-56 | no grade component writes a key that another grade component writes, so no component overwrites another's entries |
| Stats.AddGrades | utils.py:49-56 | the component loop keeps every existing key on success; on failure the error is the first failing component's: KeyError naming it when it has no input, else its grade's own exception, with every component before it graded without raising |
| Stats.MissingFirstInputRaises | utils.py:49-52 | with no input for the first grade component, annotation raises KeyError for that component |
| Stats.AddGradesSucceeds | utils.py:48-57 | the component loop succeeds iff every component has an input that grades without raising; otherwise it raises KeyError or ZeroDivisionError |
| Stats.AddGradesFrame | utils.py:48-57 | the loop adds exactly the annotation keys and leaves every other key unchanged |
| Stats.AddGradesAnnotates | utils.py:48-57 | with separate keys, each component's three keys hold its own grade's colour, letter and value |
| Stats.AddGradeAndColor | utils.py:48-57 | fails iff some component is ungradable, with the first ungradable component's exception (KeyError naming it for a missing input, else ZeroDivisionError from its grade); on success the result's keys are the old keys plus the twelve annotation keys, every other key keeps its value, and each component's entries hold its own grade |
| Stats.AddGradesIdempotent | utils.py:48-57 | running the loop again over its own output changes nothing |
| Stats.AddGradeAndColorIdempotent | utils.py:48-57 | annotating twice with the same inputs equals annotating once |
| Score.LetterGradeAndColor | utils.py:83-108 | floor 0/1/2/3 gives F/D/C/B and any other floor A (each an iff); a modifier is present iff the letter is D, C or B and the remainder is below 1/3 or above 2/3; it is '-' iff the remainder is below 1/3 and '+' iff above 2/3; the colour is the base letter's |
| Score.LetterGradeMonotone | utils.py:83-106 | for 0 ≤ s1 ≤ s2, the grade of s2 is never below the grade of s1 in the order F < D- < D < D+ < … < B+ < A |
| Score.ModifierBoundaries | utils.py:96-106 | 2+1/3 and 2+2/3 give plain C; 2.25 gives C- and 2.75 gives C+; 4.0 gives plain A; 0.75 gives plain F |
| Score.Sum | utils.py:111-115 | component values in [0, 4] have a total in [0, 4n] |
| Score.ScoreFromValues | utils.py:111-123 | values in [0, 4] give a score in [0, 4]; with no failing component the score is the mean; with one it is below 3.0, and exactly 2.5 when the mean is at least 3.0; the score differs from the mean only in that case |
| Score.CapOnlyLowers | utils.py:121-123 | the cap never raises the score and never changes a score with no failing component |
| Score.FailingComponentCapsAtC | utils.py:121-123 | with values in [0, 4] and a failing component, the overall letter is F, D or C, never B or A |
| Score.ScoreInQuarterSteps | utils.py:119-123 | whole component values give a score that is a multiple of 0.25 |
| Score.OneFThreeAGivesC | utils.py:110-125 | one F and three A give score 2.5 and grade "C", not "B" |
| Score.AllAGivesA | utils.py:110-125 | four A components give "A", never "A-" or "A+" |
| Score.ComponentValues | utils.py:113-117 | succeeds iff every component's `_grade_value` key is present and numeric; otherwise raises for the first component that is not: KeyError naming its missing `_grade_value` key, or TypeError for a non-numeric value; on success it lists those values in component order |
| Score.CalculateLandlordScore | utils.py:110-125 | succeeds iff all four `_grade_value` entries are present and numeric; otherwise raises for the first grade component that is not: KeyError naming the missing key, or TypeError; the result is the letter grade of the capped score of exactly those values |
| Score.AnnotatedComponentValues | utils.py:113-114 | reading back the `<component>_grade_value` keys of a dictionary annotated with every component's grade yields exactly those grade values, in component order |
| Score.ScoreOfAnnotated | utils.py:303-304 | scoring a dictionary that `add_grade_and_color` annotated never fails, and it scores exactly the component grades |
| Score.AnnotatedScoreBounds | utils.py:110-125 | every score reachable from graded components lies in [0, 4] and is a multiple of 0.25 |
| Normalise.LandlordStatsFor | utils.py:196-209 | missing counts read as 0; raises iff the unit count is a known 0; an unknown unit count leaves the per-unit figures equal to the raw counts; otherwise per-unit × units = raw count |
| Normalise.EvictionsPerUnit | utils.py:220-225 | raises iff some group with an eviction row has unit count 0; otherwise one entry per row in row order, divided by the unit count whenever the group has one |
| Normalise.CodeViolationsPerUnit | utils.py:230-235 | never raises; one entry per row in row order, divided only when the group's unit count is positive, else the raw count |
| Normalise.ToMap | utils.py:155-157 | the unit-count dictionary's keys are exactly the groups of the query rows |
| Normalise.ToMapValues | utils.py:155-157 | with one row per group, each group maps to its row's unit count |
| Normalise.CityAverageStats | utils.py:211-244 | succeeds iff no zero-unit eviction group, at least two eviction and two code-violation groups, and a non-zero total unit count, with errors in source order; each mean × total units = its city total; each std_dev is `stdev` of the correctly normalised list |
| Normalise.NormalisationsAgreeOnPositiveUnits | utils.py:220-235 | for a group with a positive unit count both lists hold count / units |
| Ranking.StrLessIrreflexive | utils.py:310 | Python's string `<` (code-point lexicographic order, a proper prefix first) never holds between a string and itself |
| Ranking.StrLessTransitive | utils.py:310 | Python's string `<` is transitive |
| Ranking.StrLessTotal | utils.py:310 | any two different strings are ordered one way or the other, so string `<` is a strict total order and the grade sort is well defined |
| Ranking.DescendingIsWorstFirst | utils.py:309-310 | a descending sort (any direction other than "asc") orders the grade strings F, D-, D+, D, C-, C+, C, B-, B+, B, A |
| Ranking.GradeStringOrder | utils.py:310 | grade strings sort as Python strings: "B" < "B+" < "B-" < "C", "A" < "B-", "D+" < "D-" < "F" |
| Ranking.SortByKey | utils.py:310 | the sorted list has the input's length |
| Ranking.SortByKeyCorrect | utils.py:309-310 | the sort is a permutation, is ordered by the grade string (descending when reversed), and keeps equal grades in input order |
| Ranking.StableSortUnique | utils.py:310 | two lists both ordered by key with the same per-key order are equal |
| Ranking.StableSortIsSortByKey | utils.py:309-310 | every stable sort of the list by key, Python's `list.sort` included, equals the modelled sort |
| Ranking.SliceIndex | utils.py:313 | Python slice-bound normalisation: in-range bounds are kept, bounds past the end clamp to n, negative bounds count from the end, and bounds below −n clamp to 0 |
| Ranking.PySlice | utils.py:313 | a Python slice is never longer than the list, and for 0 ≤ lo ≤ hi it is the clamped window |
| Ranking.Paginate | utils.py:312-313 | total is the population size; for page ≥ 1 and size ≥ 0 the items are the window sorted[min(first, n)..min(first + size, n)] with first = (page − 1) × size, at most size of them, and none past the end |
| Ranking.PaginationExample | utils.py:312-313 | 25 items in pages of 10: page 2 is items 11-20, page 3 has 5 items, and page 4 is empty, each with total 25 |
| Ranking.NonPositivePages | utils.py:312-313 | page 0 is empty, and page −1 is the window [n − 2·size, n − size) |
| Ranking.StoreScore | utils.py:304-306 | the update adds "grade" and "color" holding the score, and changes no other key |
| Ranking.GradeLandlord | utils.py:301-307 | grading one landlord fails iff a component is ungradable; on success the row is the landlord's own dictionary with exactly the annotation keys, "grade" and "color" added; every other field keeps its value; each component's entries hold its own grade; "grade" and "color" are the letter grade and colour of its component grades |
| Ranking.TryMap | utils.py:301-307 | the grading loop succeeds iff every landlord grades, and then yields one row per landlord in order; a failure is the first failing landlord's error, with every earlier landlord graded |
| Ranking.TryMapMembers | utils.py:301-307 | every row produced is the graded row of some landlord |
| Ranking.SortLandlordsByGrade | utils.py:296-313 | fails iff some landlord is ungradable; total is the number of landlords; a page ≥ 1 holds at most page-size rows (which rows: `Ranking.SortLandlordsByGradeSpec`) |
| Ranking.SortLandlordsByGradeSpec | utils.py:296-313 | for page ≥ 1 and size ≥ 0: the graded rows are the landlords' own rows in order; the sorted list is a permutation of them, ordered by grade string in the requested direction, with equal grades in landlord order; the page is exactly its window [(page − 1) × size, min(n, page × size)); so the page is ordered and each row on it is some landlord's graded row |
| Ranking.PageWindow | utils.py:309-313 | a page of the stable sort is the window [(page − 1) × size, (page − 1) × size + size) of an ordered, order-keeping permutation of the rows |
| Ranking.PageOfSorted | utils.py:310-313 | a page of the sorted list is ordered and holds only elements of the list |

## Left out

- Database queries are left out: `landlords_with_unit_count_query`, `evictions_query`, `code_violations_query`, `Landlord.query`, `.paginate`, `perform_search` and `get_unsafe_unfit_properties`. Their results are parameters.
- Clock-dependent date windows (`date.today()`) are left out. They only filter the queries.
- The first `get_landlord_stats` (utils.py:33-40) is left out, because the second definition shadows it. `get_enriched_landlord`, `get_landlord` and the alias/property readers are plain database reads and are left out too.
- The database path of `get_ranked_landlords` is left out. It uses `getattr` on the ORM class and the database's `ORDER BY`/`paginate`, which this model does not include. Only its grade-sort path is modelled.
- `statistics.stdev` is not modelled. It needs square roots and floating-point behaviour, so it is a parameter; only its "fewer than two points" error is modelled.
- `replace_ordinals`, `get_address_dict`, `get_address_filter_criteria` and `get_landlord_filter_criteria` are left out. They wrap `num2words`, `usaddress` and SQL `ilike` builders.
- Stats.AddGradeAndColor: reads each component's value, mean and std_dev from a map keyed by component name, not from the string keys `{c}_per_unit`, `mean_{c}_per_unit` and `std_dev_{c}`. This is the evidently intended mapping. As written, `get_city_average_stats` returns only `mean_evictions_per_unit`, `mean_code_violations_per_unit`, `std_dev_evictions` and `std_dev_code_violations` (utils.py:239-244). None of these is `mean_{c}_per_unit` or `std_dev_{c}` for a grade component, whose names end in `_count`. So `add_grade_and_color(landlord, get_city_average_stats())` raises KeyError on the first component (utils.py:49-52). The model's KeyError path is that as-written behaviour: an input map without the first component raises KeyError for it (`Stats.MissingFirstInputRaises`). Because the inputs are keyed by component, that KeyError carries the component's name rather than the string key Python reports (such as `tenant_complaints_count_per_unit`).
- Score.LetterGradeAndColor: compares the remainder with the exact reals 1/3 and 2/3, where Python uses the nearest floats. The two agree on every reachable score, because reachable scores are multiples of 0.25.
- Normalise.CityAverageStats: requires one unit-count row per group, as the query's GROUP BY gives. Under that condition the sum of the dictionary's values equals the sum of the rows.
- Mixing `Decimal` and `float` (Python's TypeError) is not modelled. All numbers are exact reals.
- Ranking.SortLandlordsByGrade: takes the landlords, each with its grading inputs, as a parameter. The source reads them with `Landlord.query.all()` and `get_city_average_stats()`. With those inputs as written, every non-empty population raises KeyError in `add_grade_and_color` (see `Stats.AddGradeAndColor` above), so the source returns a page only for an empty population. The model's success path grades the intended inputs. The exceptions of the city baseline are not part of this member's `Err`. The source computes the baseline before the loop (utils.py:299), even for an empty population, and there it can raise StatisticsError or ZeroDivisionError (the `Err` results of `Normalise.CityAverageStats`). The model returns an empty page for no landlords.

=== FILE: constants.dfy ===
/** The fixed grade tables, component list and paging defaults of `constants.py`. */
module Constants {

  /** One per-metric grade record: its letter, numeric value and display colour. */
  datatype Grade = Grade(grade: string, value: int, color: string)

  const DefaultPageSize: int := 50
  const DefaultPageNumber: int := 1
  const DefaultSortBy: string := "property_count"
  const DefaultSortDirection: string := "desc"
  const SearchDefaultMaxResults: int := 100

  const Green: string := "2cba00"
  const Orange: string := "ffa700"
  const Red: string := "ff0000"

  /** Display colour of each base letter. */
  const GradeColors: map<string, string> :=
    map["A" := Green, "B" := Green, "C" := Orange, "D" := Orange, "F" := Red]

  const GradeA: Grade := Grade("A", 4, GradeColors["A"])
  const GradeB: Grade := Grade("B", 3, GradeColors["B"])
  const GradeC: Grade := Grade("C", 2, GradeColors["C"])
  const GradeD: Grade := Grade("D", 1, GradeColors["D"])
  const GradeF: Grade := Grade("F", 0, GradeColors["F"])

  /** The metrics that make up a landlord's overall score, in evaluation order. */
  const GradeComponents: seq<string> := [
    "tenant_complaints_count",
    "code_violations_count",
    "police_incidents_count",
    "eviction_count"
  ]

  const StatsToScale: seq<string> := GradeComponents

  /** The per-metric grades in ascending order of value. */
  const AllGrades: seq<Grade> := [GradeF, GradeD, GradeC, GradeB, GradeA]

  /** Grade values run 0..4 and strictly increase from F to A. */
  lemma GradeValuesIncreasing()
    ensures forall i :: 0 <= i < |AllGrades| ==> AllGrades[i].value == i
    ensures forall i, j :: 0 <= i < j < |AllGrades| ==> AllGrades[i].value < AllGrades[j].value
  {
  }

  /** Every grade record's colour is the table colour of its own letter. */
  lemma GradeColoursConsistent()
    ensures forall i :: 0 <= i < |AllGrades| ==>
      AllGrades[i].grade in GradeColors && AllGrades[i].color == GradeColors[AllGrades[i].grade]
  {
  }

  /** A and B are green, C and D orange, F alone red. */
  lemma ColourTiers()
    ensures GradeColors.Keys == {"A", "B", "C", "D", "F"}
    ensures GradeColors["A"] == GradeColors["B"] == Green
    ensures GradeColors["C"] == GradeColors["D"] == Orange
    ensures GradeColors["F"] == Red
    ensures forall l :: l in GradeColors && l != "F" ==> GradeColors[l] != Red
  {
  }

  /** There are exactly four distinct components, and the scaled stats are the same list. */
  lemma ComponentsDistinct()
    ensures |GradeComponents| == 4
    ensures forall i, j :: 0 <= i < j < |GradeComponents| ==> GradeComponents[i] != GradeComponents[j]
    ensures StatsToScale == GradeComponents
  {
  }

  /** The default page is the first, and it starts at index 0. */
  lemma DefaultPaging()
    ensures DefaultPageNumber > 0 && DefaultPageSize > 0
    ensures (DefaultPageNumber - 1) * DefaultPageSize == 0
  {
  }
}

=== FILE: grading.dfy ===
/** Per-metric grading (`get_std_devs`, `get_grade_and_color_from_std_devs`,
    `get_stats_grade_and_color`): a landlord's metric value is compared with the
    city mean in units of the city standard deviation and bucketed into a letter. */
module Grading {
  import opened Wrappers
  import opened Constants

  /** `value == 0 or value is None`: the leniency test. */
  predicate IsZeroOrNone(value: Option<real>) {
    value.None? || value.value == 0.0
  }

  /** A missing value counts as 0.0. */
  function ValueOrZero(value: Option<real>): real {
    value.GetOr(0.0)
  }

  /** The signed offset `(average - value) / std_dev`: positive means fewer incidents
      than average. Division by a zero standard deviation raises. */
  function StdDevs(value: Option<real>, average: real, stdDev: real): (r: Result<real>)
    ensures r.Err? <==> stdDev == 0.0
    ensures r.Err? ==> r.error == ZeroDivisionError
    ensures r.Ok? ==> r.value * stdDev == average - ValueOrZero(value)
    ensures r.Ok? && stdDev > 0.0 ==> (r.value > 0.0 <==> ValueOrZero(value) < average)
  {
    if stdDev == 0.0 then Err(ZeroDivisionError)
    else Ok((average - ValueOrZero(value)) / stdDev)
  }

  /** The letter band of an offset. The bands are closed toward the extremes:
      -1.5 is already F, -0.5 already D, 0.5 already B and 1.5 already A. */
  function GradeFromStdDevs(stdDevs: real): (g: Grade)
    ensures g == GradeF <==> stdDevs <= -1.5
    ensures g == GradeD <==> -1.5 < stdDevs <= -0.5
    ensures g == GradeC <==> -0.5 < stdDevs < 0.5
    ensures g == GradeB <==> 0.5 <= stdDevs < 1.5
    ensures g == GradeA <==> 1.5 <= stdDevs
  {
    if stdDevs <= -1.5 then GradeF
    else if stdDevs <= -0.5 then GradeD
    else if stdDevs >= 1.5 then GradeA
    else if stdDevs >= 0.5 then GradeB
    else GradeC
  }

  /** A larger offset never earns a lower grade. */
  lemma GradeFromStdDevsMonotone(d1: real, d2: real)
    requires d1 <= d2
    ensures GradeFromStdDevs(d1).value <= GradeFromStdDevs(d2).value
  {
  }

  /** The grade of one metric. Zero or missing values get A without any division,
      so a zero standard deviation only raises for a non-zero value. */
  function StatsGradeAndColor(value: Option<real>, average: real, stdDev: real): (r: Result<Grade>)
    ensures IsZeroOrNone(value) ==> r == Ok(GradeA)
    ensures r.Err? <==> !IsZeroOrNone(value) && stdDev == 0.0
    ensures r.Err? ==> r.error == ZeroDivisionError
    ensures r.Ok? ==> r.value in AllGrades
  {
    if IsZeroOrNone(value) then Ok(GradeA)
    else
      var stdDevs :- StdDevs(value, average, stdDev);
      Ok(GradeFromStdDevs(stdDevs))
  }

  /** Dividing by a positive number preserves the order of two reals. */
  lemma DivideByPositive(x: real, y: real, s: real)
    requires s > 0.0
    ensures x <= y <==> x / s <= y / s
    ensures x < y <==> x / s < y / s
  {
    assert (x / s) * s == x;
    assert (y / s) * s == y;
    if x <= y {
      assert y / s - x / s == (y - x) / s;
    }
    if x / s <= y / s {
      assert y - x == (y / s - x / s) * s;
    }
    if x < y {
      assert y / s - x / s == (y - x) / s;
    }
    if x / s < y / s {
      assert y - x == (y / s - x / s) * s;
    }
  }

  /** The bands restated on the metric value itself, without division: with
      mean m and standard deviation s, a non-zero value v earns
      F when v >= m + 1.5s, D when m + 0.5s <= v < m + 1.5s,
      C when m - 0.5s < v < m + 0.5s, B when m - 1.5s < v <= m - 0.5s,
      and A when v <= m - 1.5s. */
  lemma ValueBands(v: real, average: real, stdDev: real)
    requires stdDev > 0.0 && v != 0.0
    ensures StatsGradeAndColor(Some(v), average, stdDev).Ok?
    ensures var g := StatsGradeAndColor(Some(v), average, stdDev).value;
      && (g == GradeF <==> v >= average + 1.5 * stdDev)
      && (g == GradeD <==> average + 0.5 * stdDev <= v < average + 1.5 * stdDev)
      && (g == GradeC <==> average - 0.5 * stdDev < v < average + 0.5 * stdDev)
      && (g == GradeB <==> average - 1.5 * stdDev < v <= average - 0.5 * stdDev)
      && (g == GradeA <==> v <= average - 1.5 * stdDev)
  {
    var d := (average - v) / stdDev;
    assert StdDevs(Some(v), average, stdDev) == Ok(d);
    assert -1.5 == (-1.5 * stdDev) / stdDev;
    assert -0.5 == (-0.5 * stdDev) / stdDev;
    assert 0.5 == (0.5 * stdDev) / stdDev;
    assert 1.5 == (1.5 * stdDev) / stdDev;
    DivideByPositive(average - v, -1.5 * stdDev, stdDev);
    DivideByPositive(average - v, -0.5 * stdDev, stdDev);
    DivideByPositive(0.5 * stdDev, average - v, stdDev);
    DivideByPositive(1.5 * stdDev, average - v, stdDev);
    DivideByPositive(-1.5 * stdDev, average - v, stdDev);
    DivideByPositive(-0.5 * stdDev, average - v, stdDev);
    DivideByPositive(average - v, 0.5 * stdDev, stdDev);
    DivideByPositive(average - v, 1.5 * stdDev, stdDev);
  }

  /** A non-zero value equal to the city mean is graded C. */
  lemma ValueAtMeanGetsC(average: real, stdDev: real)
    requires stdDev > 0.0 && average != 0.0
    ensures StatsGradeAndColor(Some(average), average, stdDev) == Ok(GradeC)
  {
    ValueBands(average, average, stdDev);
  }

  /** Zero leniency: a zero or missing value gets A whatever the mean and
      standard deviation, a zero standard deviation included. */
  lemma ZeroGetsA(value: Option<real>, average: real, stdDev: real)
    requires IsZeroOrNone(value)
    ensures StatsGradeAndColor(value, average, stdDev) == Ok(GradeA)
    ensures StatsGradeAndColor(value, average, stdDev).value.value == 4
  {
  }

  /** With a positive standard deviation and non-negative values, the larger
      value never earns the strictly higher grade. */
  lemma GradeMonotoneInValue(v1: real, v2: real, average: real, stdDev: real)
    requires stdDev > 0.0 && 0.0 <= v1 <= v2
    ensures StatsGradeAndColor(Some(v1), average, stdDev).Ok?
    ensures StatsGradeAndColor(Some(v2), average, stdDev).Ok?
    ensures StatsGradeAndColor(Some(v2), average, stdDev).value.value
         <= StatsGradeAndColor(Some(v1), average, stdDev).value.value
  {
    if v1 != 0.0 {
      DivideByPositive(average - v2, average - v1, stdDev);
      GradeFromStdDevsMonotone((average - v2) / stdDev, (average - v1) / stdDev);
    }
  }
}

=== FILE: normalise.dfy ===
/** Per-unit normalisation: one landlord group's statistics (the second
    `get_landlord_stats`) and the city-wide per-group lists and means
    (`get_city_average_stats`). The aggregate queries become parameters:
    a query row is a (group id, count) pair, a missing row is `None`. */
module Normalise {
  import opened Wrappers

  /** A landlord group id; the unit-count query's outer join can yield `None`. */
  type GroupId = Option<int>

  /** The statistics of one landlord group. */
  datatype LandlordStats = LandlordStats(
    unitCount: Option<real>,
    evictionsCount: real,
    codeViolationsCount: real,
    evictionsPerUnit: real,
    codeViolationsPerUnit: real)

  /** `get_landlord_stats`: counts default to 0 when the group has no row;
      the per-unit figures divide by the unit count, or by 1 when it is unknown.
      A known unit count of 0 raises. */
  function LandlordStatsFor(unitCount: Option<real>, evictionsRow: Option<real>, codeViolationsRow: Option<real>)
    : (r: Result<LandlordStats>)
    ensures r.Err? <==> unitCount == Some(0.0)
    ensures r.Err? ==> r.error == ZeroDivisionError
    ensures r.Ok? ==> r.value.unitCount == unitCount
    ensures r.Ok? ==> r.value.evictionsCount == evictionsRow.GetOr(0.0)
    ensures r.Ok? ==> r.value.codeViolationsCount == codeViolationsRow.GetOr(0.0)
    ensures r.Ok? && unitCount.None? ==>
      r.value.evictionsPerUnit == r.value.evictionsCount &&
      r.value.codeViolationsPerUnit == r.value.codeViolationsCount
    ensures r.Ok? && unitCount.Some? ==>
      r.value.evictionsPerUnit * unitCount.value == r.value.evictionsCount &&
      r.value.codeViolationsPerUnit * unitCount.value == r.value.codeViolationsCount
  {
    var evictions := evictionsRow.GetOr(0.0);
    var codeViolations := codeViolationsRow.GetOr(0.0);
    var denominator := if unitCount.None? then 1.0 else unitCount.value;
    if denominator == 0.0 then Err(ZeroDivisionError)
    else Ok(LandlordStats(unitCount, evictions, codeViolations,
                          evictions / denominator, codeViolations / denominator))
  }

  /** `x` is the eviction count of `row` normalised by its group's unit count:
      divided whenever the group has a unit count at all. */
  predicate EvictionNormalised(row: (GroupId, real), units: map<GroupId, real>, x: real) {
    if row.0 in units then x * units[row.0] == row.1 else x == row.1
  }

  /** `x` is the code-violation count of `row` normalised by its group's unit
      count: divided only when that count is positive. */
  predicate CodeViolationNormalised(row: (GroupId, real), units: map<GroupId, real>, x: real) {
    if row.0 in units && units[row.0] > 0.0 then x * units[row.0] == row.1 else x == row.1
  }

  /** `xs` normalises the eviction rows one for one, in row order. */
  predicate EvictionList(rows: seq<(GroupId, real)>, units: map<GroupId, real>, xs: seq<real>) {
    |xs| == |rows| && forall i :: 0 <= i < |rows| ==> EvictionNormalised(rows[i], units, xs[i])
  }

  /** `xs` normalises the code-violation rows one for one, in row order. */
  predicate CodeViolationList(rows: seq<(GroupId, real)>, units: map<GroupId, real>, xs: seq<real>) {
    |xs| == |rows| && forall i :: 0 <= i < |rows| ==> CodeViolationNormalised(rows[i], units, xs[i])
  }

  /** Some eviction row belongs to a group whose unit count is 0. */
  predicate HasZeroUnitEvictionGroup(rows: seq<(GroupId, real)>, units: map<GroupId, real>) {
    exists i :: 0 <= i < |rows| && rows[i].0 in units && units[rows[i].0] == 0.0
  }

  /** The eviction list of `get_city_average_stats`, one entry per group row in
      row order; a group whose unit count is 0 raises. */
  method EvictionsPerUnit(rows: seq<(GroupId, real)>, units: map<GroupId, real>) returns (r: Result<seq<real>>)
    ensures r.Err? <==> HasZeroUnitEvictionGroup(rows, units)
    ensures r.Err? ==> r.error == ZeroDivisionError
    ensures r.Ok? ==> EvictionList(rows, units, r.value)
  {
    var xs: seq<real> := [];
    var i := 0;
    while i < |rows|
      invariant 0 <= i <= |rows|
      invariant |xs| == i
      invariant forall j :: 0 <= j < i ==> EvictionNormalised(rows[j], units, xs[j])
      invariant !exists j :: 0 <= j < i && rows[j].0 in units && units[rows[j].0] == 0.0
    {
      var (group, count) := rows[i];
      if group in units {
        if units[group] == 0.0 {
          return Err(ZeroDivisionError);
        }
        xs := xs + [count / units[group]];
      } else {
        xs := xs + [count];
      }
      i := i + 1;
    }
    return Ok(xs);
  }

  /** The code-violation list of `get_city_average_stats`, one entry per group
      row in row order; never raises. */
  method CodeViolationsPerUnit(rows: seq<(GroupId, real)>, units: map<GroupId, real>) returns (xs: seq<real>)
    ensures CodeViolationList(rows, units, xs)
  {
    xs := [];
    var i := 0;
    while i < |rows|
      invariant 0 <= i <= |rows|
      invariant |xs| == i
      invariant forall j :: 0 <= j < i ==> CodeViolationNormalised(rows[j], units, xs[j])
    {
      var (group, count) := rows[i];
      if group in units && units[group] > 0.0 {
        xs := xs + [count / units[group]];
      } else {
        xs := xs + [count];
      }
      i := i + 1;
    }
  }

  /** Every group has one row. */
  predicate DistinctGroups(rows: seq<(GroupId, real)>) {
    forall i, j :: 0 <= i < j < |rows| ==> rows[i].0 != rows[j].0
  }

  /** The group ids of a list of rows. */
  function Groups(rows: seq<(GroupId, real)>): set<GroupId> {
    set i | 0 <= i < |rows| :: rows[i].0
  }

  /** The dictionary built from query rows; a later row for the same group wins. */
  function ToMap(rows: seq<(GroupId, real)>): (m: map<GroupId, real>)
    ensures m.Keys == Groups(rows)
    decreases |rows|
  {
    if |rows| == 0 then map[]
    else
      var init := rows[..|rows| - 1];
      var last := rows[|rows| - 1];
      assert Groups(rows) == Groups(init) + {last.0} by {
        assert forall i :: 0 <= i < |init| ==> init[i] == rows[i];
      }
      ToMap(init)[last.0 := last.1]
  }

  /** With one row per group, the dictionary maps each group to its row's count. */
  lemma {:induction false} ToMapValues(rows: seq<(GroupId, real)>)
    requires DistinctGroups(rows)
    ensures forall i :: 0 <= i < |rows| ==> ToMap(rows)[rows[i].0] == rows[i].1
    decreases |rows|
  {
    if |rows| > 0 {
      var init := rows[..|rows| - 1];
      assert DistinctGroups(init);
      ToMapValues(init);
      forall i | 0 <= i < |rows|
        ensures ToMap(rows)[rows[i].0] == rows[i].1
      {
        if i < |rows| - 1 {
          assert init[i] == rows[i];
        }
      }
    }
  }

  /** The total of the counts of a list of rows. */
  function TotalCount(rows: seq<(GroupId, real)>): real
    decreases |rows|
  {
    if |rows| == 0 then 0.0 else rows[0].1 + TotalCount(rows[1..])
  }

  /** The city baseline: mean and standard deviation of each normalised metric. */
  datatype CityStats = CityStats(
    meanEvictionsPerUnit: real,
    meanCodeViolationsPerUnit: real,
    stdDevEvictions: real,
    stdDevCodeViolations: real)

  /** `get_city_average_stats`. The city totals, the per-group query rows and
      the sample standard deviation `stdev` are parameters. Exceptions come in
      source order: a zero-unit eviction group, fewer than two eviction rows,
      fewer than two code-violation rows, then a zero total unit count. */
  method CityAverageStats(
    totalEvictions: real, totalCodeViolations: real,
    unitRows: seq<(GroupId, real)>,
    evictionRows: seq<(GroupId, real)>, codeViolationRows: seq<(GroupId, real)>,
    stdev: seq<real> -> real)
    returns (r: Result<CityStats>)
    requires DistinctGroups(unitRows)
    ensures r.Ok? <==>
      && !HasZeroUnitEvictionGroup(evictionRows, ToMap(unitRows))
      && |evictionRows| >= 2 && |codeViolationRows| >= 2
      && TotalCount(unitRows) != 0.0
    ensures r.Err? ==>
      r.error == (if HasZeroUnitEvictionGroup(evictionRows, ToMap(unitRows)) then ZeroDivisionError
                  else if |evictionRows| < 2 || |codeViolationRows| < 2 then StatisticsError
                  else ZeroDivisionError)
    ensures r.Ok? ==> r.value.meanEvictionsPerUnit * TotalCount(unitRows) == totalEvictions
    ensures r.Ok? ==> r.value.meanCodeViolationsPerUnit * TotalCount(unitRows) == totalCodeViolations
    ensures r.Ok? ==> exists xs :: EvictionList(evictionRows, ToMap(unitRows), xs) && r.value.stdDevEvictions == stdev(xs)
    ensures r.Ok? ==> exists xs :: CodeViolationList(codeViolationRows, ToMap(unitRows), xs) && r.value.stdDevCodeViolations == stdev(xs)
  {
    var units := ToMap(unitRows);
    var totalUnitCount := TotalCount(unitRows);
    var evictions := EvictionsPerUnit(evictionRows, units);
    if evictions.Err? {
      return Err(evictions.error);
    }
    if |evictions.value| < 2 {
      return Err(StatisticsError);
    }
    var stdDevEvictions := stdev(evictions.value);
    var codeViolations := CodeViolationsPerUnit(codeViolationRows, units);
    if |codeViolations| < 2 {
      return Err(StatisticsError);
    }
    var stdDevCodeViolations := stdev(codeViolations);
    if totalUnitCount == 0.0 {
      return Err(ZeroDivisionError);
    }
    return Ok(CityStats(totalEvictions / totalUnitCount, totalCodeViolations / totalUnitCount,
                        stdDevEvictions, stdDevCodeViolations));
  }

  /** Normalising by a positive unit count and multiplying back recovers the
      raw count, and both lists agree on groups with a positive unit count. */
  lemma NormalisationsAgreeOnPositiveUnits(row: (GroupId, real), units: map<GroupId, real>, x: real)
    requires row.0 in units && units[row.0] > 0.0
    ensures EvictionNormalised(row, units, x) <==> CodeViolationNormalised(row, units, x)
    ensures EvictionNormalised(row, units, x) <==> x == row.1 / units[row.0]
  {
  }
}

=== FILE: ranking.dfy ===
/** Ranking landlords by overall grade (`sort_landlords_by_grade`): every
    landlord is graded, the list is stably sorted by the grade STRING and one
    page is cut out of it with a Python slice. */
module Ranking {
  import opened Wrappers
  import opened Constants
  import opened Stats
  import opened Score

  /** Python's `<` on strings: code-point lexicographic order, a proper prefix first. */
  predicate StrLess(a: string, b: string)
    decreases |a|
  {
    if |a| == 0 then |b| > 0
    else if |b| == 0 then false
    else if a[0] != b[0] then a[0] < b[0]
    else StrLess(a[1..], b[1..])
  }

  lemma {:induction false} StrLessIrreflexive(a: string)
    ensures !StrLess(a, a)
    decreases |a|
  {
    if |a| > 0 {
      StrLessIrreflexive(a[1..]);
    }
  }

  lemma {:induction false} StrLessTransitive(a: string, b: string, c: string)
    requires StrLess(a, b) && StrLess(b, c)
    ensures StrLess(a, c)
    decreases |a|
  {
    if |a| > 0 && a[0] == b[0] && b[0] == c[0] {
      StrLessTransitive(a[1..], b[1..], c[1..]);
    }
  }

  lemma {:induction false} StrLessTotal(a: string, b: string)
    requires a != b
    ensures StrLess(a, b) || StrLess(b, a)
    decreases |a|
  {
    if |a| > 0 && |b| > 0 && a[0] == b[0] {
      StrLessTotal(a[1..], b[1..]);
    }
  }

  /** The grade strings are not in academic order: "B" < "B+" < "B-" < "C",
      "A" < "B-", "D+" < "D-" and "D-" < "F". */
  lemma GradeStringOrder()
    ensures StrLess("B", "B+") && StrLess("B+", "B-") && StrLess("B-", "C")
    ensures StrLess("A", "B-") && StrLess("D+", "D-") && StrLess("D-", "F")
  {
  }

  /** Key `ka` sorts strictly before key `kb`; `reverse` is a descending sort. */
  predicate Before(ka: string, kb: string, reverse: bool) {
    if reverse then StrLess(kb, ka) else StrLess(ka, kb)
  }

  /** In a strictly descending list of strings every element is below all earlier ones. */
  lemma {:induction false} DescendingChain(s: seq<string>, i: int, j: int)
    requires forall k :: 0 <= k < |s| - 1 ==> StrLess(s[k + 1], s[k])
    requires 0 <= i < j < |s|
    ensures StrLess(s[j], s[i])
    decreases j - i
  {
    if j > i + 1 {
      DescendingChain(s, i, j - 1);
      StrLessTransitive(s[j], s[j - 1], s[i]);
    }
  }

  /** Every direction other than "asc" sorts grade strings in descending string
      order, which lists the worst grades first:
      F, D-, D+, D, C-, C+, C, B-, B+, B, A. */
  lemma DescendingIsWorstFirst()
    ensures SortedBy(["F", "D-", "D+", "D", "C-", "C+", "C", "B-", "B+", "B", "A"], (g: string) => g, true)
  {
    var order := ["F", "D-", "D+", "D", "C-", "C+", "C", "B-", "B+", "B", "A"];
    forall k | 0 <= k < |order| - 1
      ensures StrLess(order[k + 1], order[k])
    {
    }
    forall i, j | 0 <= i < j < |order|
      ensures !Before(order[j], order[i], true)
    {
      DescendingChain(order, i, j);
      if StrLess(order[i], order[j]) {
        StrLessTransitive(order[i], order[j], order[i]);
        StrLessIrreflexive(order[i]);
      }
    }
  }

  lemma BeforeIrreflexive(k: string, reverse: bool)
    ensures !Before(k, k, reverse)
  {
    StrLessIrreflexive(k);
  }

  /** "Not before" is transitive: the order is a strict weak order. */
  lemma NotBeforeTransitive(a: string, b: string, c: string, reverse: bool)
    requires !Before(c, b, reverse) && !Before(b, a, reverse)
    ensures !Before(c, a, reverse)
  {
    if Before(c, a, reverse) {
      if b == c {
      } else {
        StrLessTotal(b, c);
        if reverse {
          StrLessTransitive(a, c, b);
        } else {
          StrLessTransitive(b, c, a);
        }
      }
    }
  }

  /** Two different keys are ordered one way or the other. */
  lemma BeforeTotal(a: string, b: string, reverse: bool)
    requires a != b
    ensures Before(a, b, reverse) || Before(b, a, reverse)
  {
    StrLessTotal(a, b);
  }

  /** Ordered by key: no element sorts strictly before an earlier one. */
  ghost predicate SortedBy<T>(s: seq<T>, key: T -> string, reverse: bool) {
    forall i, j :: 0 <= i < j < |s| ==> !Before(key(s[j]), key(s[i]), reverse)
  }

  /** The elements of `s` whose key is `k`, in their order in `s`. */
  function Filter<T>(s: seq<T>, key: T -> string, k: string): seq<T>
    decreases |s|
  {
    if |s| == 0 then []
    else (if key(s[0]) == k then [s[0]] else []) + Filter(s[1..], key, k)
  }

  /** Elements with equal keys appear in the same relative order in both. */
  ghost predicate SameOrderPerKey<T>(s: seq<T>, t: seq<T>, key: T -> string) {
    forall k :: Filter(s, key, k) == Filter(t, key, k)
  }

  /** Stable insertion: `x` goes before the first element that does not sort
      strictly before it, so it precedes all elements with its own key. */
  function Insert<T>(x: T, s: seq<T>, key: T -> string, reverse: bool): (r: seq<T>)
    ensures |r| == |s| + 1
    decreases |s|
  {
    if |s| == 0 then [x]
    else if Before(key(s[0]), key(x), reverse) then [s[0]] + Insert(x, s[1..], key, reverse)
    else [x] + s
  }

  /** A stable sort by key, ascending, or descending when `reverse`. */
  function SortByKey<T>(s: seq<T>, key: T -> string, reverse: bool): (r: seq<T>)
    ensures |r| == |s|
    decreases |s|
  {
    if |s| == 0 then [] else Insert(s[0], SortByKey(s[1..], key, reverse), key, reverse)
  }

  lemma {:induction false} InsertPermutes<T>(x: T, s: seq<T>, key: T -> string, reverse: bool)
    ensures multiset(Insert(x, s, key, reverse)) == multiset([x] + s)
    decreases |s|
  {
    if |s| > 0 && Before(key(s[0]), key(x), reverse) {
      InsertPermutes(x, s[1..], key, reverse);
      assert s == [s[0]] + s[1..];
    }
  }

  /** Unfolds `Filter` on a list with a known head. */
  lemma FilterCons<T>(y: T, s: seq<T>, key: T -> string, k: string)
    ensures Filter([y] + s, key, k) == (if key(y) == k then [y] else []) + Filter(s, key, k)
  {
    assert ([y] + s)[0] == y && ([y] + s)[1..] == s;
  }

  lemma {:induction false} FilterInsert<T>(x: T, s: seq<T>, key: T -> string, reverse: bool, k: string)
    ensures Filter(Insert(x, s, key, reverse), key, k)
         == (if key(x) == k then [x] else []) + Filter(s, key, k)
    decreases |s|
  {
    if |s| == 0 {
      FilterCons(x, s, key, k);
    } else if Before(key(s[0]), key(x), reverse) {
      var rest := Insert(x, s[1..], key, reverse);
      FilterInsert(x, s[1..], key, reverse, k);
      FilterCons(s[0], rest, key, k);
      FilterCons(s[0], s[1..], key, k);
      assert s == [s[0]] + s[1..];
      BeforeIrreflexive(key(x), reverse);
      assert key(x) == k ==> key(s[0]) != k;
    } else {
      FilterCons(x, s, key, k);
    }
  }

  lemma {:induction false} InsertSorted<T>(x: T, s: seq<T>, key: T -> string, reverse: bool)
    requires SortedBy(s, key, reverse)
    ensures SortedBy(Insert(x, s, key, reverse), key, reverse)
    decreases |s|
  {
    var r := Insert(x, s, key, reverse);
    if |s| == 0 {
    } else if Before(key(s[0]), key(x), reverse) {
      var rest := Insert(x, s[1..], key, reverse);
      InsertSorted(x, s[1..], key, reverse);
      InsertPermutes(x, s[1..], key, reverse);
      assert !Before(key(x), key(s[0]), reverse) by {
        if Before(key(x), key(s[0]), reverse) {
          if reverse {
            StrLessTransitive(key(s[0]), key(x), key(s[0]));
          } else {
            StrLessTransitive(key(x), key(s[0]), key(x));
          }
          StrLessIrreflexive(key(x));
          StrLessIrreflexive(key(s[0]));
        }
      }
      forall j | 0 <= j < |rest|
        ensures !Before(key(rest[j]), key(s[0]), reverse)
      {
        assert rest[j] in multiset([x] + s[1..]);
        if rest[j] != x {
          assert rest[j] in s[1..];
          var m :| 1 <= m < |s| && s[m] == rest[j];
        }
      }
      assert r == [s[0]] + rest;
    } else {
      forall i, j | 0 <= i < j < |r|
        ensures !Before(key(r[j]), key(r[i]), reverse)
      {
        if i == 0 && j > 1 {
          NotBeforeTransitive(key(x), key(s[0]), key(s[j - 1]), reverse);
        }
      }
    }
  }

  /** The sort is a permutation, ordered by key, and stable. */
  lemma {:induction false} SortByKeyCorrect<T>(s: seq<T>, key: T -> string, reverse: bool)
    ensures multiset(SortByKey(s, key, reverse)) == multiset(s)
    ensures SortedBy(SortByKey(s, key, reverse), key, reverse)
    ensures SameOrderPerKey(SortByKey(s, key, reverse), s, key)
    decreases |s|
  {
    if |s| > 0 {
      var t := SortByKey(s[1..], key, reverse);
      SortByKeyCorrect(s[1..], key, reverse);
      InsertPermutes(s[0], t, key, reverse);
      InsertSorted(s[0], t, key, reverse);
      assert s == [s[0]] + s[1..];
      forall k
        ensures Filter(SortByKey(s, key, reverse), key, k) == Filter(s, key, k)
      {
        FilterInsert(s[0], t, key, reverse, k);
      }
    }
  }

  /** An element whose key is `k` lies in `s` whenever the `k`-filter is non-empty. */
  lemma {:induction false} FilterNonEmpty<T>(s: seq<T>, key: T -> string, k: string)
    requires |Filter(s, key, k)| > 0
    ensures exists j :: 0 <= j < |s| && key(s[j]) == k
    decreases |s|
  {
    if key(s[0]) != k {
      FilterNonEmpty(s[1..], key, k);
      var j :| 0 <= j < |s[1..]| && key(s[1..][j]) == k;
      assert key(s[j + 1]) == k;
    }
  }

  /** Lists with the same per-key order are empty together. */
  lemma NonEmptyStaysNonEmpty<T>(t: seq<T>, u: seq<T>, key: T -> string)
    requires SameOrderPerKey(t, u, key) || SameOrderPerKey(u, t, key)
    requires |t| > 0
    ensures |u| > 0
  {
    var k := key(t[0]);
    assert |Filter(t, key, k)| > 0;
    assert |Filter(u, key, k)| > 0;
    FilterNonEmpty(u, key, k);
  }

  /** Two lists ordered by key with the same per-key order are equal: the result
      of a stable sort does not depend on the sorting algorithm. */
  lemma {:induction false} StableSortUnique<T>(t: seq<T>, u: seq<T>, key: T -> string, reverse: bool)
    requires SortedBy(t, key, reverse) && SortedBy(u, key, reverse)
    requires SameOrderPerKey(t, u, key)
    ensures t == u
    decreases |t|
  {
    if |t| > 0 {
      NonEmptyStaysNonEmpty(t, u, key);
    }
    if |u| > 0 {
      NonEmptyStaysNonEmpty(u, t, key);
    }
    if |t| > 0 {
      var a, b := t[0], u[0];
      if key(a) != key(b) {
        BeforeTotal(key(a), key(b), reverse);
        if Before(key(a), key(b), reverse) {
          assert Filter(t, key, key(a)) == Filter(u, key, key(a));
          FilterNonEmpty(u, key, key(a));
          assert false;
        } else {
          assert Filter(t, key, key(b)) == Filter(u, key, key(b));
          FilterNonEmpty(t, key, key(b));
          assert false;
        }
      }
      assert Filter(t, key, key(a)) == Filter(u, key, key(a));
      assert Filter(t, key, key(a))[0] == a;
      assert Filter(u, key, key(a))[0] == b;
      forall k
        ensures Filter(t[1..], key, k) == Filter(u[1..], key, k)
      {
        var head := if key(a) == k then [a] else [];
        assert Filter(t, key, k) == head + Filter(t[1..], key, k);
        assert Filter(u, key, k) == head + Filter(u[1..], key, k);
        assert Filter(t[1..], key, k) == Filter(t, key, k)[|head|..];
        assert Filter(u[1..], key, k) == Filter(u, key, k)[|head|..];
      }
      StableSortUnique(t[1..], u[1..], key, reverse);
      assert t == [a] + t[1..] && u == [b] + u[1..];
    }
  }

  /** Any stable sort of `s` by key (a permutation keeping the per-key order)
      equals `SortByKey`. */
  lemma StableSortIsSortByKey<T>(s: seq<T>, t: seq<T>, key: T -> string, reverse: bool)
    requires SortedBy(t, key, reverse) && SameOrderPerKey(t, s, key)
    ensures t == SortByKey(s, key, reverse)
  {
    SortByKeyCorrect(s, key, reverse);
    StableSortUnique(t, SortByKey(s, key, reverse), key, reverse);
  }

  /** Python's normalisation of a slice bound: negative indices count from the
      end, and the result is clamped to [0, n]. */
  function SliceIndex(i: int, n: nat): (r: nat)
    ensures r <= n
    ensures 0 <= i <= n ==> r == i
    ensures i > n ==> r == n
    ensures i < 0 && 0 <= i + n ==> r == i + n
    ensures i + n < 0 ==> r == 0
  {
    if i < 0 then (if i + n < 0 then 0 else i + n)
    else if i > n then n
    else i
  }

  /** Python's `xs[lo:hi]`. */
  function PySlice<T>(xs: seq<T>, lo: int, hi: int): (r: seq<T>)
    ensures |r| <= |xs|
    ensures 0 <= lo <= hi ==> r == xs[SliceIndex(lo, |xs|)..SliceIndex(hi, |xs|)]
  {
    var a := SliceIndex(lo, |xs|);
    var b := SliceIndex(hi, |xs|);
    if a < b then xs[a..b] else []
  }

  /** A page of results and the size of the whole population. */
  datatype PaginatedResults<T> = PaginatedResults(items: seq<T>, total: int)

  function Min(a: int, b: int): int {
    if a <= b then a else b
  }

  /** The index of the first item on page `pageNumber`, counting pages from 1. */
  function FirstIndex(pageNumber: int, pageSize: int): nat
    requires pageNumber >= 1 && pageSize >= 0
  {
    (pageNumber - 1) * pageSize
  }

  /** The items from index `first` on, at most `size` of them. */
  function Window<T>(s: seq<T>, first: nat, size: nat): seq<T> {
    s[Min(first, |s|)..Min(first + size, |s|)]
  }

  /** The slice `[(page - 1) * size : (page - 1) * size + size]` of the sorted list. */
  function Paginate<T>(sorted: seq<T>, pageNumber: int, pageSize: int): (p: PaginatedResults<T>)
    ensures p.total == |sorted|
    ensures pageNumber >= 1 && pageSize >= 0 ==> p.items == Window(sorted, FirstIndex(pageNumber, pageSize), pageSize)
    ensures pageNumber >= 1 && pageSize >= 0 ==> |p.items| <= pageSize
    ensures pageNumber >= 1 && pageSize >= 0 && (pageNumber - 1) * pageSize >= |sorted| ==> p.items == []
  {
    var first := (pageNumber - 1) * pageSize;
    PaginatedResults(PySlice(sorted, first, first + pageSize), |sorted|)
  }

  /** With 25 landlords and pages of 10: page 2 holds items 11-20, page 3 the
      last five, and page 4 is empty, each reporting a total of 25. */
  lemma PaginationExample<T>(sorted: seq<T>)
    requires |sorted| == 25
    ensures Paginate(sorted, 2, 10) == PaginatedResults(sorted[10..20], 25)
    ensures |Paginate(sorted, 3, 10).items| == 5
    ensures Paginate(sorted, 4, 10) == PaginatedResults([], 25)
  {
  }

  /** Page 0 is empty; a negative page counts back from the end of the list,
      as Python's negative slice bounds do. */
  lemma NonPositivePages<T>(sorted: seq<T>, pageSize: int)
    requires 0 < pageSize && 2 * pageSize <= |sorted|
    ensures Paginate(sorted, 0, pageSize).items == []
    ensures Paginate(sorted, -1, pageSize).items
         == sorted[|sorted| - 2 * pageSize..|sorted| - pageSize]
  {
  }

  /** One landlord: its statistics dictionary and the inputs that grade it. */
  datatype Landlord = Landlord(row: Dict, inputs: map<string, MetricInput>)

  /** The "grade" entry of a row, or "" when it has none. */
  function GradeField(row: Dict): string {
    if "grade" in row && row["grade"].Str? then row["grade"].s else ""
  }

  /** `dict.update` with the score's "grade" and "color" entries. */
  function StoreScore(d: Dict, score: LetterGrade): (r: Dict)
    ensures r.Keys == d.Keys + {"grade", "color"}
    ensures r["grade"] == Str(score.grade) && GradeField(r) == score.grade
    ensures r["color"] == Str(score.color)
    ensures forall k :: k in d && k != "grade" && k != "color" ==> r[k] == d[k]
  {
    assert "grade" != "color" by { assert "grade"[0] != "color"[0]; }
    d["grade" := Str(score.grade)]["color" := Str(score.color)]
  }

  /** The overall letter grade and colour of a landlord with gradable inputs. */
  function InputsLetter(inputs: map<string, MetricInput>): LetterGrade
    requires Gradable(GradeComponents, inputs)
  {
    LetterGradeAndColor(ScoreFromValues(GradeValuesOf(inputs, GradeComponents)))
  }

  /** One iteration of the grading loop: annotate the landlord's own row, score
      it, and store the overall grade and colour in it. Every other field of the
      row is kept. */
  function GradeLandlord(l: Landlord): (r: Result<Dict>)
    ensures r.Ok? <==> Gradable(GradeComponents, l.inputs)
    ensures r.Ok? ==>
      && Gradable(GradeComponents, l.inputs)
      && "grade" in r.value
      && r.value["grade"] == Str(InputsLetter(l.inputs).grade)
      && "color" in r.value
      && r.value["color"] == Str(InputsLetter(l.inputs).color)
    ensures r.Ok? ==> r.value.Keys == l.row.Keys + AllAnnotationKeys(GradeComponents) + {"grade", "color"}
    ensures r.Ok? ==> forall k :: k in l.row && k !in AllAnnotationKeys(GradeComponents) && k != "grade" && k != "color" ==>
      r.value[k] == l.row[k]
    ensures r.Ok? ==> forall c :: c in GradeComponents ==>
      c in l.inputs && MetricGrade(l.inputs[c]).Ok? && HasAnnotation(r.value, c, MetricGrade(l.inputs[c]).value)
  {
    var annotated := AddGradeAndColor(l.row, l.inputs);
    if annotated.Err? then Err(annotated.error)
    else
      ScoreOfAnnotated(l.row, l.inputs);
      var letter := CalculateLandlordScore(annotated.value).value;
      assert letter == InputsLetter(l.inputs);
      var d := StoreScore(annotated.value, letter);
      AnnotationsSurviveScore(annotated.value, letter, l.inputs);
      Ok(d)
  }

  /** Storing the score touches no annotation key. */
  lemma AnnotationsSurviveScore(d: Dict, letter: LetterGrade, inputs: map<string, MetricInput>)
    requires forall c :: c in GradeComponents ==>
      c in inputs && MetricGrade(inputs[c]).Ok? && HasAnnotation(d, c, MetricGrade(inputs[c]).value)
    ensures forall c :: c in GradeComponents ==>
      c in inputs && MetricGrade(inputs[c]).Ok? && HasAnnotation(StoreScore(d, letter), c, MetricGrade(inputs[c]).value)
  {
    forall c | c in GradeComponents
      ensures HasAnnotation(StoreScore(d, letter), c, MetricGrade(inputs[c]).value)
    {
      assert |ColorKey(c)| > 5 && |GradeKey(c)| > 5 && |GradeValueKey(c)| > 5;
    }
  }

  /** Applies `f` to every element in order; the first failure aborts, and its
      error is the result. */
  function TryMap<A, B>(xs: seq<A>, f: A -> Result<B>): (r: Result<seq<B>>)
    ensures r.Ok? <==> forall i :: 0 <= i < |xs| ==> f(xs[i]).Ok?
    ensures r.Ok? ==> |r.value| == |xs|
    ensures r.Ok? ==> forall i :: 0 <= i < |xs| ==> f(xs[i]) == Ok(r.value[i])
    ensures r.Err? ==> exists i :: 0 <= i < |xs| && f(xs[i]) == Err(r.error) && forall j :: 0 <= j < i ==> f(xs[j]).Ok?
    decreases |xs|
  {
    if |xs| == 0 then Ok([])
    else
      var first := f(xs[0]);
      var rest := TryMap(xs[1..], f);
      if first.Err? then Err(first.error)
      else if rest.Err? then
        assert forall i :: 1 <= i < |xs| ==> xs[i] == xs[1..][i - 1];
        Err(rest.error)
      else
        var ys := [first.value] + rest.value;
        assert forall i :: 1 <= i < |xs| ==> xs[i] == xs[1..][i - 1] && ys[i] == rest.value[i - 1];
        Ok(ys)
  }

  /** Every result of a successful `TryMap` is the image of some element. */
  lemma TryMapMembers<A, B>(xs: seq<A>, f: A -> Result<B>)
    requires TryMap(xs, f).Ok?
    ensures forall y :: y in TryMap(xs, f).value ==> exists i :: 0 <= i < |xs| && f(xs[i]) == Ok(y)
  {
    var ys := TryMap(xs, f).value;
    forall y | y in ys
      ensures exists i :: 0 <= i < |xs| && f(xs[i]) == Ok(y)
    {
      var i :| 0 <= i < |ys| && ys[i] == y;
      assert f(xs[i]) == Ok(y);
    }
  }

  /** Grades every landlord in order; the first failure aborts. */
  function GradeAll(landlords: seq<Landlord>): Result<seq<Dict>> {
    TryMap(landlords, GradeLandlord)
  }

  /** `sort_landlords_by_grade`: any direction other than "asc" sorts descending. */
  function SortLandlordsByGrade(landlords: seq<Landlord>, sortDirection: string, pageNumber: int, pageSize: int)
    : (r: Result<PaginatedResults<Dict>>)
    ensures r.Ok? <==> forall i :: 0 <= i < |landlords| ==> Gradable(GradeComponents, landlords[i].inputs)
    ensures r.Ok? ==> r.value.total == |landlords|
    ensures r.Ok? && pageNumber >= 1 && pageSize >= 0 ==> |r.value.items| <= pageSize
  {
    var graded := GradeAll(landlords);
    if graded.Err? then Err(graded.error)
    else Ok(Paginate(SortByKey(graded.value, GradeField, sortDirection != "asc"), pageNumber, pageSize))
  }

  /** A contiguous window of an ordered list is ordered. */
  lemma SliceSorted<T>(s: seq<T>, key: T -> string, reverse: bool, lo: int, hi: int)
    requires SortedBy(s, key, reverse) && 0 <= lo <= hi <= |s|
    ensures SortedBy(s[lo..hi], key, reverse)
  {
    var w := s[lo..hi];
    forall i, j | 0 <= i < j < |w|
      ensures !Before(key(w[j]), key(w[i]), reverse)
    {
      assert w[i] == s[lo + i] && w[j] == s[lo + j];
    }
  }

  /** A page of a stably sorted list is itself ordered and holds only elements of the list. */
  lemma PageOfSorted<T>(rows: seq<T>, key: T -> string, reverse: bool, pageNumber: int, pageSize: int)
    requires pageNumber >= 1 && pageSize >= 0
    ensures var items := Paginate(SortByKey(rows, key, reverse), pageNumber, pageSize).items;
      && SortedBy(items, key, reverse)
      && forall x :: x in items ==> x in rows
  {
    var sorted := SortByKey(rows, key, reverse);
    SortByKeyCorrect(rows, key, reverse);
    var page := Paginate(sorted, pageNumber, pageSize);
    var first := (pageNumber - 1) * pageSize;
    var lo, hi := Min(first, |sorted|), Min(first + pageSize, |sorted|);
    assert page.items == sorted[lo..hi];
    SliceSorted(sorted, key, reverse, lo, hi);
    forall x | x in page.items
      ensures x in rows
    {
      assert x in sorted;
      assert x in multiset(sorted);
    }
  }

  /** A page of `SortByKey` is the window `[(page - 1) * size : page * size]` of a
      stably sorted permutation of the rows. */
  lemma PageWindow<T>(rows: seq<T>, key: T -> string, reverse: bool, pageNumber: int, pageSize: int)
    requires pageNumber >= 1 && pageSize >= 0
    ensures var sorted := SortByKey(rows, key, reverse);
      var first := FirstIndex(pageNumber, pageSize);
      && multiset(sorted) == multiset(rows)
      && SortedBy(sorted, key, reverse)
      && SameOrderPerKey(sorted, rows, key)
      && Paginate(sorted, pageNumber, pageSize).items == Window(sorted, first, pageSize)
  {
    SortByKeyCorrect(rows, key, reverse);
  }

  /** The page is a window of the graded landlords stably sorted by grade string:
      the graded rows are the landlords' own rows in order, the sorted list is a
      permutation of them that is ordered by grade string and keeps the order of
      equal grades, and the page is the slice `[(page - 1) * size : page * size]`
      of that list. */
  lemma SortLandlordsByGradeSpec(landlords: seq<Landlord>, sortDirection: string, pageNumber: int, pageSize: int)
    requires forall i :: 0 <= i < |landlords| ==> Gradable(GradeComponents, landlords[i].inputs)
    requires pageNumber >= 1 && pageSize >= 0
    ensures GradeAll(landlords).Ok?
    ensures var graded := GradeAll(landlords).value;
      && |graded| == |landlords|
      && forall i :: 0 <= i < |landlords| ==> GradeLandlord(landlords[i]) == Ok(graded[i])
    ensures var graded := GradeAll(landlords).value;
      var sorted := SortByKey(graded, GradeField, sortDirection != "asc");
      var first := FirstIndex(pageNumber, pageSize);
      && multiset(sorted) == multiset(graded)
      && SortedBy(sorted, GradeField, sortDirection != "asc")
      && SameOrderPerKey(sorted, graded, GradeField)
      && SortLandlordsByGrade(landlords, sortDirection, pageNumber, pageSize).value.items
         == Window(sorted, first, pageSize)
    ensures var items := SortLandlordsByGrade(landlords, sortDirection, pageNumber, pageSize).value.items;
      && SortedBy(items, GradeField, sortDirection != "asc")
      && forall x :: x in items ==> exists i :: 0 <= i < |landlords| && GradeLandlord(landlords[i]) == Ok(x)
  {
    var reverse := sortDirection != "asc";
    var rows := GradeAll(landlords).value;
    var sorted := SortByKey(rows, GradeField, reverse);
    assert SortLandlordsByGrade(landlords, sortDirection, pageNumber, pageSize)
        == Ok(Paginate(sorted, pageNumber, pageSize));
    PageWindow(rows, GradeField, reverse, pageNumber, pageSize);
    PageOfSorted(rows, GradeField, reverse, pageNumber, pageSize);
    TryMapMembers(landlords, GradeLandlord);
  }
}

=== FILE: score.dfy ===
/** The overall landlord score (`calculate_landlord_score`) and its conversion to
    a letter with a -/+ modifier (`get_letter_grade_and_color`). */
module Score {
  import opened Wrappers
  import opened Constants
  import opened Stats

  /** An overall grade: letter plus optional modifier, and the base letter's colour. */
  datatype LetterGrade = LetterGrade(grade: string, color: string)

  /** The letter for the integer part of a score; every floor other than 0..3 is A. */
  function BaseLetter(base: int): string {
    if base == 0 then "F"
    else if base == 1 then "D"
    else if base == 2 then "C"
    else if base == 3 then "B"
    else "A"
  }

  /** The fractional part of a score, in [0, 1). */
  function Remainder(score: real): (rem: real)
    ensures 0.0 <= rem < 1.0
  {
    score - score.Floor as real
  }

  /** `get_letter_grade_and_color`: the floor picks the letter, the fractional
      part the modifier ("-" below a third, "+" above two thirds), and F and A
      never carry one. */
  function LetterGradeAndColor(score: real): (r: LetterGrade)
    ensures |r.grade| == 1 || |r.grade| == 2
    ensures r.grade[0] == 'F' <==> score.Floor == 0
    ensures r.grade[0] == 'D' <==> score.Floor == 1
    ensures r.grade[0] == 'C' <==> score.Floor == 2
    ensures r.grade[0] == 'B' <==> score.Floor == 3
    ensures r.grade[0] == 'A' <==> score.Floor < 0 || 4 <= score.Floor
    ensures |r.grade| == 2 <==>
      1 <= score.Floor <= 3 && (Remainder(score) < 1.0 / 3.0 || Remainder(score) > 2.0 / 3.0)
    ensures |r.grade| == 2 ==> (r.grade[1] == '-' <==> Remainder(score) < 1.0 / 3.0)
    ensures |r.grade| == 2 ==> (r.grade[1] == '+' <==> Remainder(score) > 2.0 / 3.0)
    ensures r.grade[..1] in GradeColors && r.color == GradeColors[r.grade[..1]]
  {
    var base := score.Floor;
    var letter := BaseLetter(base);
    var remainder := Remainder(score);
    var modifier :=
      if letter == "F" || letter == "A" then ""
      else if remainder < 1.0 / 3.0 then "-"
      else if remainder > 2.0 / 3.0 then "+"
      else "";
    assert (letter + modifier)[..1] == letter;
    LetterGrade(letter + modifier, GradeColors[letter])
  }

  /** Academic order of overall grades: F < D- < D < D+ < C- < ... < B+ < A.
      Strings that are not overall grades rank 0. */
  function AcademicRank(grade: string): int {
    if |grade| == 0 then 0
    else
      var letter := if grade[0] == 'F' then 0 else if grade[0] == 'D' then 1
        else if grade[0] == 'C' then 2 else if grade[0] == 'B' then 3
        else if grade[0] == 'A' then 4 else -1;
      if letter < 0 then 0
      else if letter == 0 then 1
      else if letter == 4 then 13
      else 3 * letter + (if |grade| == 1 then 1 else if grade[1] == '-' then 0 else 2)
  }

  /** A higher non-negative score never gets a lower grade in academic order. */
  lemma LetterGradeMonotone(s1: real, s2: real)
    requires 0.0 <= s1 <= s2
    ensures AcademicRank(LetterGradeAndColor(s1).grade) <= AcademicRank(LetterGradeAndColor(s2).grade)
  {
    var g1, g2 := LetterGradeAndColor(s1).grade, LetterGradeAndColor(s2).grade;
    var f1, f2 := s1.Floor, s2.Floor;
    assert 0 <= f1 <= f2;
    if f1 == f2 {
      assert Remainder(s1) <= Remainder(s2);
    }
  }

  /** Two modifier boundaries and the top: exactly a third and exactly two
      thirds carry no modifier, and 4.0 is a plain A. */
  lemma ModifierBoundaries()
    ensures LetterGradeAndColor(2.0 + 1.0 / 3.0) == LetterGrade("C", Orange)
    ensures LetterGradeAndColor(2.0 + 2.0 / 3.0) == LetterGrade("C", Orange)
    ensures LetterGradeAndColor(2.25) == LetterGrade("C-", Orange)
    ensures LetterGradeAndColor(2.75) == LetterGrade("C+", Orange)
    ensures LetterGradeAndColor(4.0) == LetterGrade("A", Green)
    ensures LetterGradeAndColor(0.75) == LetterGrade("F", Red)
  {
    assert (2.0 + 1.0 / 3.0).Floor == 2;
    assert (2.0 + 2.0 / 3.0).Floor == 2;
    assert (2.25).Floor == 2;
    assert (2.75).Floor == 2;
    assert (4.0).Floor == 4;
    assert (0.75).Floor == 0;
  }

  /** The sum of the component values. */
  function Sum(values: seq<real>): (s: real)
    ensures (forall i :: 0 <= i < |values| ==> 0.0 <= values[i] <= 4.0) ==>
      0.0 <= s <= 4.0 * |values| as real
    decreases |values|
  {
    if |values| == 0 then 0.0 else values[0] + Sum(values[1..])
  }

  /** A component below 2 (a D or an F). */
  predicate HasFailingGrade(values: seq<real>) {
    exists i :: 0 <= i < |values| && values[i] < 2.0
  }

  /** The unweighted mean of the component values. */
  function Mean(values: seq<real>): real
    requires |values| == |GradeComponents|
  {
    Sum(values) / |GradeComponents| as real
  }

  /** The numeric overall score: the mean of the components, except that a
      failing component caps an average of 3.0 or more at 2.5. */
  function ScoreFromValues(values: seq<real>): (score: real)
    requires |values| == |GradeComponents|
    ensures (forall i :: 0 <= i < |values| ==> 0.0 <= values[i] <= 4.0) ==> 0.0 <= score <= 4.0
    ensures !HasFailingGrade(values) ==> score == Mean(values)
    ensures HasFailingGrade(values) ==> score < 3.0
    ensures HasFailingGrade(values) && Mean(values) >= 3.0 ==> score == 2.5
    ensures score != Mean(values) ==> score == 2.5 && HasFailingGrade(values)
  {
    if HasFailingGrade(values) && Mean(values) >= 3.0 then 2.5 else Mean(values)
  }

  /** A real with no fractional part. */
  predicate IsWhole(x: real) {
    x == x.Floor as real
  }

  /** Whole component values have a whole sum. */
  lemma {:induction false} SumOfWholeIsWhole(values: seq<real>)
    requires forall i :: 0 <= i < |values| ==> IsWhole(values[i])
    ensures IsWhole(Sum(values))
    decreases |values|
  {
    if |values| > 0 {
      SumOfWholeIsWhole(values[1..]);
      var a, b := values[0].Floor, Sum(values[1..]).Floor;
      assert Sum(values) == (a + b) as real;
    }
  }

  /** With whole component values every score is a multiple of a quarter. */
  lemma ScoreInQuarterSteps(values: seq<real>)
    requires |values| == |GradeComponents|
    requires forall i :: 0 <= i < |values| ==> IsWhole(values[i])
    ensures IsWhole(4.0 * ScoreFromValues(values))
  {
    SumOfWholeIsWhole(values);
    if ScoreFromValues(values) != 2.5 {
      assert 4.0 * ScoreFromValues(values) == Sum(values);
    } else {
      assert 4.0 * 2.5 == (10 as real);
    }
  }

  /** The cap only lowers the score, and never a failing-free one. */
  lemma CapOnlyLowers(values: seq<real>)
    requires |values| == |GradeComponents|
    ensures ScoreFromValues(values) <= Mean(values)
    ensures !HasFailingGrade(values) ==> ScoreFromValues(values) == Mean(values)
  {
  }

  /** A failing component limits the overall letter to C or below, never B or A. */
  lemma FailingComponentCapsAtC(values: seq<real>)
    requires |values| == |GradeComponents|
    requires forall i :: 0 <= i < |values| ==> 0.0 <= values[i] <= 4.0
    requires HasFailingGrade(values)
    ensures LetterGradeAndColor(ScoreFromValues(values)).grade[0] in "FDC"
  {
    var s := ScoreFromValues(values);
    assert 0 <= s.Floor <= 2;
  }

  /** One F and three A average to 3.0, which the cap turns into a plain C. */
  lemma OneFThreeAGivesC()
    ensures ScoreFromValues([0.0, 4.0, 4.0, 4.0]) == 2.5
    ensures LetterGradeAndColor(ScoreFromValues([0.0, 4.0, 4.0, 4.0])) == LetterGrade("C", Orange)
  {
    var v := [0.0, 4.0, 4.0, 4.0];
    assert v[0] < 2.0;
    assert Sum(v) == 12.0 by {
      assert v[1..] == [4.0, 4.0, 4.0];
      assert v[1..][1..] == [4.0, 4.0];
      assert v[1..][1..][1..] == [4.0];
    }
    assert (2.5).Floor == 2;
  }

  /** Four A components give a plain A, never A- or A+. */
  lemma AllAGivesA()
    ensures LetterGradeAndColor(ScoreFromValues([4.0, 4.0, 4.0, 4.0])) == LetterGrade("A", Green)
  {
    var v := [4.0, 4.0, 4.0, 4.0];
    assert Sum(v) == 16.0 by {
      assert v[1..] == [4.0, 4.0, 4.0];
      assert v[1..][1..] == [4.0, 4.0];
      assert v[1..][1..][1..] == [4.0];
    }
    assert !HasFailingGrade(v);
    assert (4.0).Floor == 4;
  }

  /** Component `c`'s `_grade_value` entry is present and numeric. */
  predicate Readable(stats: Dict, c: string) {
    GradeValueKey(c) in stats && stats[GradeValueKey(c)].Num?
  }

  /** `components[i]` is the first component whose value cannot be read. */
  predicate FirstUnreadable(stats: Dict, components: seq<string>, i: int)
    requires 0 <= i < |components|
  {
    && !Readable(stats, components[i])
    && forall j :: 0 <= j < i ==> Readable(stats, components[j])
  }

  /** What Python raises reading component `c`'s value: a KeyError naming the
      missing key, or a TypeError for a value that is not a number. */
  function ReadError(stats: Dict, c: string): PyError {
    if GradeValueKey(c) in stats then TypeError else KeyError(GradeValueKey(c))
  }

  /** The `_grade_value` entries of `components`, in order; the first missing
      key raises KeyError and the first non-numeric value TypeError. */
  function ComponentValues(stats: Dict, components: seq<string>): (r: Result<seq<real>>)
    ensures r.Ok? <==> forall c :: c in components ==> GradeValueKey(c) in stats && stats[GradeValueKey(c)].Num?
    ensures r.Err? ==> r.error.KeyError? || r.error == TypeError
    ensures r.Err? ==> exists i :: 0 <= i < |components| && FirstUnreadable(stats, components, i) && r.error == ReadError(stats, components[i])
    ensures r.Ok? ==> |r.value| == |components|
    ensures r.Ok? ==> forall i :: 0 <= i < |components| ==> stats[GradeValueKey(components[i])] == Num(r.value[i])
    decreases |components|
  {
    if |components| == 0 then Ok([])
    else
      var key := GradeValueKey(components[0]);
      if key !in stats then Err(KeyError(key))
      else if !stats[key].Num? then Err(TypeError)
      else
        var rest := ComponentValues(stats, components[1..]);
        assert forall c :: c in components <==> c == components[0] || c in components[1..];
        if rest.Err? then
          assert forall i :: 1 <= i < |components| ==> components[i] == components[1..][i - 1];
          Err(rest.error)
        else
          Ok([stats[key].n] + rest.value)
  }

  /** `calculate_landlord_score`: reads the four component grade values, averages
      them, applies the failing-component cap and converts to a letter grade. */
  function CalculateLandlordScore(stats: Dict): (r: Result<LetterGrade>)
    ensures r.Ok? <==> forall c :: c in GradeComponents ==> GradeValueKey(c) in stats && stats[GradeValueKey(c)].Num?
    ensures r.Err? ==> r.error.KeyError? || r.error == TypeError
    ensures r.Err? ==> exists i :: 0 <= i < |GradeComponents| && FirstUnreadable(stats, GradeComponents, i) && r.error == ReadError(stats, GradeComponents[i])
    ensures r.Ok? ==> exists values ::
      && |values| == |GradeComponents|
      && (forall i :: 0 <= i < |GradeComponents| ==> stats[GradeValueKey(GradeComponents[i])] == Num(values[i]))
      && r.value == LetterGradeAndColor(ScoreFromValues(values))
  {
    var values := ComponentValues(stats, GradeComponents);
    if values.Err? then Err(values.error)
    else Ok(LetterGradeAndColor(ScoreFromValues(values.value)))
  }

  /** The grade values of the components, as `add_grade_and_color` records them. */
  function GradeValuesOf(inputs: map<string, MetricInput>, components: seq<string>): seq<real>
    requires Gradable(components, inputs)
  {
    seq(|components|, i requires 0 <= i < |components| => MetricGrade(inputs[components[i]]).value.value as real)
  }

  /** A dictionary carrying every component's annotation yields exactly the
      components' grade values. */
  lemma AnnotatedComponentValues(d: Dict, inputs: map<string, MetricInput>)
    requires Gradable(GradeComponents, inputs)
    requires forall c :: c in GradeComponents ==> HasAnnotation(d, c, MetricGrade(inputs[c]).value)
    ensures ComponentValues(d, GradeComponents) == Ok(GradeValuesOf(inputs, GradeComponents))
  {
    var cv := ComponentValues(d, GradeComponents);
    assert cv.Ok?;
    assert cv.value == GradeValuesOf(inputs, GradeComponents) by {
      forall i | 0 <= i < |GradeComponents|
        ensures cv.value[i] == GradeValuesOf(inputs, GradeComponents)[i]
      {
        var c := GradeComponents[i];
        assert HasAnnotation(d, c, MetricGrade(inputs[c]).value);
      }
    }
  }

  /** Scoring an annotated dictionary never fails, and it scores exactly the
      grades of the components' metrics. */
  lemma ScoreOfAnnotated(stats: Dict, inputs: map<string, MetricInput>)
    requires Gradable(GradeComponents, inputs)
    ensures AddGradeAndColor(stats, inputs).Ok?
    ensures CalculateLandlordScore(AddGradeAndColor(stats, inputs).value)
         == Ok(LetterGradeAndColor(ScoreFromValues(GradeValuesOf(inputs, GradeComponents))))
  {
    AnnotatedComponentValues(AddGradeAndColor(stats, inputs).value, inputs);
  }

  /** Per-metric grade values are whole numbers in 0..4, so annotated scores
      lie in [0, 4] and step by quarters. */
  lemma AnnotatedScoreBounds(inputs: map<string, MetricInput>)
    requires Gradable(GradeComponents, inputs)
    ensures 0.0 <= ScoreFromValues(GradeValuesOf(inputs, GradeComponents)) <= 4.0
    ensures IsWhole(4.0 * ScoreFromValues(GradeValuesOf(inputs, GradeComponents)))
  {
    var values := GradeValuesOf(inputs, GradeComponents);
    forall i | 0 <= i < |values|
      ensures 0.0 <= values[i] <= 4.0 && IsWhole(values[i])
    {
      var g := MetricGrade(inputs[GradeComponents[i]]).value;
      assert g in AllGrades;
    }
    ScoreInQuarterSteps(values);
  }
}

=== FILE: stats.dfy ===
/** The landlord statistics dictionary and the two functions that rewrite it:
    `replace_none_with_zero` and `add_grade_and_color`. */
module Stats {
  import opened Wrappers
  import opened Constants
  import opened Grading

  /** A dictionary value: Python `None`, a number or a string. */
  datatype Value = Null | Num(n: real) | Str(s: string)

  /** A landlord's statistics dictionary, keyed by field name. */
  type Dict = map<string, Value>

  /** Every `None` becomes 0; keys and all other values stay as they are. */
  function ReplaceNoneWithZero(d: Dict): (r: Dict)
    ensures r.Keys == d.Keys
    ensures forall k :: k in r ==> r[k] != Null
    ensures forall k :: k in d && d[k] != Null ==> r[k] == d[k]
    ensures forall k :: k in d && d[k] == Null ==> r[k] == Num(0.0)
  {
    map k | k in d :: if d[k] == Null then Num(0.0) else d[k]
  }

  /** Replacing `None` twice is the same as replacing it once. */
  lemma ReplaceNoneWithZeroIdempotent(d: Dict)
    ensures ReplaceNoneWithZero(ReplaceNoneWithZero(d)) == ReplaceNoneWithZero(d)
  {
  }

  /** The three keys `add_grade_and_color` writes for one component. */
  function ColorKey(component: string): string { component + "_color" }
  function GradeKey(component: string): string { component + "_grade" }
  function GradeValueKey(component: string): string { component + "_grade_value" }

  /** A component's three keys are distinct from each other. */
  lemma OwnKeysDistinct(component: string)
    ensures ColorKey(component) != GradeKey(component)
    ensures ColorKey(component) != GradeValueKey(component)
    ensures GradeKey(component) != GradeValueKey(component)
    ensures |AnnotationKeys(component)| == 3
  {
    var n := |component|;
    assert ColorKey(component)[n + 1] == 'c';
    assert GradeKey(component)[n + 1] == 'g';
    assert |ColorKey(component)| == n + 6 && |GradeValueKey(component)| == n + 12;
  }

  function AnnotationKeys(component: string): set<string> {
    {ColorKey(component), GradeKey(component), GradeValueKey(component)}
  }

  /** All keys written for a list of components. */
  function AllAnnotationKeys(components: seq<string>): set<string>
    decreases |components|
  {
    if |components| == 0 then {}
    else AnnotationKeys(components[0]) + AllAnnotationKeys(components[1..])
  }

  /** Every annotation key belongs to some component of the list. */
  lemma {:induction false} AnnotationKeyOwner(k: string, components: seq<string>)
    requires k in AllAnnotationKeys(components)
    ensures exists c :: c in components && k in AnnotationKeys(c)
    decreases |components|
  {
    if k !in AnnotationKeys(components[0]) {
      AnnotationKeyOwner(k, components[1..]);
      var c :| c in components[1..] && k in AnnotationKeys(c);
      assert c in components;
    }
  }

  /** No component of the list writes a key that a later one also writes. */
  predicate KeysSeparate(components: seq<string>)
    decreases |components|
  {
    |components| == 0 ||
    (AnnotationKeys(components[0]) !! AllAnnotationKeys(components[1..]) && KeysSeparate(components[1..]))
  }

  /** Components whose names differ in length by neither 0 nor 6 write disjoint keys. */
  lemma DisjointByLength(a: string, b: string)
    requires |a| != |b| && |a| + 6 != |b| && |b| + 6 != |a|
    ensures AnnotationKeys(a) !! AnnotationKeys(b)
  {
    assert forall k :: k in AnnotationKeys(a) ==> |k| == |a| + 6 || |k| == |a| + 12;
    assert forall k :: k in AnnotationKeys(b) ==> |k| == |b| + 6 || |k| == |b| + 12;
  }

  /** No grade component writes a key that another grade component writes. */
  lemma GradeComponentKeysSeparate()
    ensures KeysSeparate(GradeComponents)
  {
    var t, c, p, e := GradeComponents[0], GradeComponents[1], GradeComponents[2], GradeComponents[3];
    assert |t| == 23 && |c| == 21 && |p| == 22 && |e| == 14;
    DisjointByLength(t, c);
    DisjointByLength(t, p);
    DisjointByLength(t, e);
    DisjointByLength(c, p);
    DisjointByLength(c, e);
    DisjointByLength(p, e);
    assert GradeComponents[1..] == [c, p, e];
    assert [c, p, e][1..] == [p, e];
    assert [p, e][1..] == [e];
    assert [e][1..] == [];
    assert AllAnnotationKeys([e]) == AnnotationKeys(e);
    assert AllAnnotationKeys([p, e]) == AnnotationKeys(p) + AnnotationKeys(e);
    assert AllAnnotationKeys([c, p, e]) == AnnotationKeys(c) + AnnotationKeys(p) + AnnotationKeys(e);
  }

  /** What grading one component needs: the landlord's value and the city's
      mean and standard deviation for that metric. */
  datatype MetricInput = MetricInput(value: Option<real>, mean: real, stdDev: real)

  function MetricGrade(m: MetricInput): Result<Grade> {
    StatsGradeAndColor(m.value, m.mean, m.stdDev)
  }

  /** Every component has an input and grades without raising. */
  predicate Gradable(components: seq<string>, inputs: map<string, MetricInput>) {
    forall c :: c in components ==> c in inputs && MetricGrade(inputs[c]).Ok?
  }

  /** `components[i]` is the first component without an input that grades. */
  predicate FirstUngradable(inputs: map<string, MetricInput>, components: seq<string>, i: int)
    requires 0 <= i < |components|
  {
    && !(components[i] in inputs && MetricGrade(inputs[components[i]]).Ok?)
    && Gradable(components[..i], inputs)
  }

  /** What Python raises grading component `c`: a KeyError for a missing input,
      otherwise the grade's own exception. */
  function GradeError(inputs: map<string, MetricInput>, c: string): PyError {
    if c !in inputs then KeyError(c)
    else if MetricGrade(inputs[c]).Err? then MetricGrade(inputs[c]).error
    else KeyError(c)
  }

  /** Writes one component's colour, letter and value. */
  function Annotate(stats: Dict, component: string, g: Grade): Dict {
    stats[ColorKey(component) := Str(g.color)]
         [GradeKey(component) := Str(g.grade)]
         [GradeValueKey(component) := Num(g.value as real)]
  }

  /** The loop of `add_grade_and_color` over `components`, in order; the first
      missing input or failing grade aborts it. A KeyError names a component
      whose input is missing, and every component before it graded. */
  function AddGrades(stats: Dict, inputs: map<string, MetricInput>, components: seq<string>): (r: Result<Dict>)
    ensures r.Ok? ==> stats.Keys <= r.value.Keys
    ensures r.Err? && r.error.KeyError? ==>
      exists i :: 0 <= i < |components| && components[i] == r.error.key && components[i] !in inputs
        && Gradable(components[..i], inputs)
    ensures r.Err? ==> exists i :: 0 <= i < |components| && FirstUngradable(inputs, components, i) && r.error == GradeError(inputs, components[i])
    decreases |components|
  {
    if |components| == 0 then Ok(stats)
    else
      var c := components[0];
      if c !in inputs then Err(KeyError(c))
      else
        var g :- MetricGrade(inputs[c]);
        AddGrades(Annotate(stats, c, g), inputs, components[1..])
  }

  /** `r` holds `component`'s colour, letter and value from grade `g`. */
  predicate HasAnnotation(r: Dict, component: string, g: Grade) {
    && ColorKey(component) in r && r[ColorKey(component)] == Str(g.color)
    && GradeKey(component) in r && r[GradeKey(component)] == Str(g.grade)
    && GradeValueKey(component) in r && r[GradeValueKey(component)] == Num(g.value as real)
  }

  /** The loop succeeds exactly when every component is gradable, and otherwise
      raises a KeyError or a ZeroDivisionError. */
  lemma {:induction false} AddGradesSucceeds(stats: Dict, inputs: map<string, MetricInput>, components: seq<string>)
    ensures AddGrades(stats, inputs, components).Ok? <==> Gradable(components, inputs)
    ensures AddGrades(stats, inputs, components).Err? ==>
      AddGrades(stats, inputs, components).error.KeyError? ||
      AddGrades(stats, inputs, components).error == ZeroDivisionError
    decreases |components|
  {
    if |components| > 0 {
      var c := components[0];
      if c in inputs && MetricGrade(inputs[c]).Ok? {
        var rest := components[1..];
        AddGradesSucceeds(Annotate(stats, c, MetricGrade(inputs[c]).value), inputs, rest);
        assert forall c' :: c' in components <==> c' == c || c' in rest;
      }
    }
  }

  /** The loop adds the annotation keys and changes no other key. */
  lemma {:induction false} AddGradesFrame(stats: Dict, inputs: map<string, MetricInput>, components: seq<string>)
    requires AddGrades(stats, inputs, components).Ok?
    ensures AddGrades(stats, inputs, components).value.Keys == stats.Keys + AllAnnotationKeys(components)
    ensures forall k :: k in stats && k !in AllAnnotationKeys(components) ==>
      AddGrades(stats, inputs, components).value[k] == stats[k]
    decreases |components|
  {
    if |components| > 0 {
      var c := components[0];
      var s' := Annotate(stats, c, MetricGrade(inputs[c]).value);
      AddGradesFrame(s', inputs, components[1..]);
    }
  }

  /** With separate keys, each component's keys end up holding its own grade. */
  lemma {:induction false} AddGradesAnnotates(stats: Dict, inputs: map<string, MetricInput>, components: seq<string>)
    requires KeysSeparate(components)
    requires AddGrades(stats, inputs, components).Ok?
    ensures forall c :: c in components ==>
      c in inputs && MetricGrade(inputs[c]).Ok? &&
      HasAnnotation(AddGrades(stats, inputs, components).value, c, MetricGrade(inputs[c]).value)
    decreases |components|
  {
    if |components| > 0 {
      var c := components[0];
      var rest := components[1..];
      var g := MetricGrade(inputs[c]).value;
      var s' := Annotate(stats, c, g);
      var r := AddGrades(stats, inputs, components).value;
      assert r == AddGrades(s', inputs, rest).value;
      AddGradesAnnotates(s', inputs, rest);
      AddGradesFrame(s', inputs, rest);
      OwnKeysDistinct(c);
      assert HasAnnotation(s', c, g);
      assert HasAnnotation(r, c, g);
      assert forall c' :: c' in components <==> c' == c || c' in rest;
    }
  }

  /** `add_grade_and_color`: annotates the statistics with the colour, letter and
      value of every grade component, and leaves every other key unchanged. */
  function AddGradeAndColor(stats: Dict, inputs: map<string, MetricInput>): (r: Result<Dict>)
    ensures r.Ok? <==> Gradable(GradeComponents, inputs)
    ensures r.Err? ==> r.error.KeyError? || r.error == ZeroDivisionError
    ensures r.Ok? ==> r.value.Keys == stats.Keys + AllAnnotationKeys(GradeComponents)
    ensures r.Ok? ==> forall k :: k in stats && k !in AllAnnotationKeys(GradeComponents) ==> r.value[k] == stats[k]
    ensures r.Ok? ==> forall c :: c in GradeComponents ==>
      c in inputs && MetricGrade(inputs[c]).Ok? && HasAnnotation(r.value, c, MetricGrade(inputs[c]).value)
    ensures r.Err? ==> exists i :: 0 <= i < |GradeComponents| && FirstUngradable(inputs, GradeComponents, i) && r.error == GradeError(inputs, GradeComponents[i])
  {
    GradeComponentKeysSeparate();
    AddGradesSucceeds(stats, inputs, GradeComponents);
    var r := AddGrades(stats, inputs, GradeComponents);
    if r.Ok? then
      AddGradesFrame(stats, inputs, GradeComponents);
      AddGradesAnnotates(stats, inputs, GradeComponents);
      r
    else r
  }

  /** Without an input for the first component, annotation raises a KeyError for
      that component before anything else is graded. */
  lemma MissingFirstInputRaises(stats: Dict, inputs: map<string, MetricInput>)
    requires GradeComponents[0] !in inputs
    ensures AddGradeAndColor(stats, inputs) == Err(KeyError(GradeComponents[0]))
  {
  }

  /** Running the loop again over its own output changes nothing. */
  lemma AddGradesIdempotent(stats: Dict, inputs: map<string, MetricInput>, components: seq<string>)
    requires KeysSeparate(components)
    requires AddGrades(stats, inputs, components).Ok?
    ensures AddGrades(AddGrades(stats, inputs, components).value, inputs, components)
         == AddGrades(stats, inputs, components)
  {
    var once := AddGrades(stats, inputs, components).value;
    AddGradesSucceeds(stats, inputs, components);
    AddGradesSucceeds(once, inputs, components);
    var twice := AddGrades(once, inputs, components).value;
    AddGradesFrame(stats, inputs, components);
    AddGradesFrame(once, inputs, components);
    AddGradesAnnotates(stats, inputs, components);
    AddGradesAnnotates(once, inputs, components);
    forall k | k in once
      ensures twice[k] == once[k]
    {
      if k in AllAnnotationKeys(components) {
        AnnotationKeyOwner(k, components);
        var c :| c in components && k in AnnotationKeys(c);
        var g := MetricGrade(inputs[c]).value;
        assert HasAnnotation(once, c, g);
        assert HasAnnotation(twice, c, g);
      }
    }
    assert twice == once;
  }

  /** Annotating twice with the same inputs gives the same dictionary as once. */
  lemma AddGradeAndColorIdempotent(stats: Dict, inputs: map<string, MetricInput>)
    requires Gradable(GradeComponents, inputs)
    ensures AddGradeAndColor(AddGradeAndColor(stats, inputs).value, inputs)
         == AddGradeAndColor(stats, inputs)
  {
    GradeComponentKeysSeparate();
    AddGradesIdempotent(stats, inputs, GradeComponents);
  }
}

=== FILE: wrappers.dfy ===
/** Option and Result types, and the Python exceptions the grading code can raise. */
module Wrappers {

  /** Python's `None` versus a present value. */
  datatype Option<+T> = None | Some(value: T) {

    /** The value, or `default` when absent. */
    function GetOr(default: T): T {
      match this
      case Some(v) => v
      case None => default
    }
  }

  /** The exceptions that escape the modelled functions. */
  datatype PyError =
    | ZeroDivisionError
    | KeyError(key: string)
    | TypeError
    | StatisticsError

  /** Either a computed value or the exception that aborted the computation. */
  datatype Result<+T> = Ok(value: T) | Err(error: PyError) {

    predicate IsFailure() {
      Err?
    }

    function PropagateFailure<U>(): Result<U>
      requires Err?
    {
      Err(error)
    }

    function Extract(): T
      requires Ok?
    {
      value
    }
  }
}
